=== FILE: README.md ===
# Dungeon generation of rust_roguelike, modelled in Dafny

This project models the pure core of a small libtcod roguelike: procedural dungeon generation and the player's movement guard.

- The map starts as all walls. `make_map` then makes `MAX_ROOMS` placement attempts.
- Each attempt draws a room size and position that fit on the map.
- A room that intersects an earlier accepted room is rejected.
- An accepted room has its interior carved to floor.
- The first accepted room receives the player. Every later room is joined to the previous one by an L-shaped corridor, whose orientation a coin flip chooses.
- `Object::move_by` moves an object only onto a tile that does not block.

Files and modules:

- `geometry.dfy` (`Geometry`): points and the `Rect` room box. `NewRect` is `Rect::new`, `Center` is `Rect::center` with Rust's round-toward-zero `/`, and `Intersects` is `intersects_with`, which is asymmetric on the x axis.
- `tiles.dfy` (`Tiles`): the constants `Empty` and `Wall` are `Tile::empty` and `Tile::wall`. `Filled` is the all-wall map that `make_map` starts from. The map is `seq<seq<Tile>>` indexed `m[x][y]` (one inner sequence per column, as `vec![vec![..; MAP_HEIGHT]; MAP_WIDTH]`). `Carve` is the reference definition of clearing a region: a room interior, an inclusive row segment or an inclusive column segment.
- `carving.dfy` (`Carving`): `CreateRoom`, `CreateHTunnel` and `CreateVTunnel` are `create_room`, `create_h_tunnel` and `create_v_tunnel`, written as the source writes them, with loops that store one tile at a time. Each is proved equal to `Carve` of its region.
- `paths.dfy` (`Paths`): walks are sequences of orthogonally adjacent open tiles. It also defines straight lines and the L-shaped corridor walk.
- `dungeon.dfy` (`Dungeon`): `make_map` as recursion over a pre-drawn sequence of attempts, with the loop invariant and the connectivity and border lemmas. `MakeMap` is the whole function and `Run` its loop. `Place` is one loop iteration, and `AnyIntersects` is its rejection test. `Accept` is the accepted branch: carve the room, then place the player or dig the corridor. `Connect` is the coin-chosen pair of tunnels.
- `movement.dfy` (`Movement`): `MoveBy` is `Object::move_by`, with an index panic modelled as an `OutOfBounds` result.

The random number generator is a parameter. Each loop iteration takes one `Attempt(w, h, x, y, horizontalFirst)`, whose fields lie in the ranges `gen_range` guarantees. The coin field stands for the `rand::random()` call and is read only when that call happens: the room is accepted and is not the first. The source's constants are `Dungeon.Source`. The model is stated for any `Config` that satisfies `ValidConfig`: the `gen_range` ranges are non-empty, and the minimum room size and the number of attempts are not negative.

The code panics on an out-of-range index; it has no `OutOfBounds` error value. Carving therefore has a precondition that the carved region lies on the map, and `make_map` is proved to meet it on every call. For `move_by` the panic is an explicit `OutOfBounds` outcome.

## Model

| member | source | states |
|---|---|---|
| Geometry.NewRect | src/main.rs:143-150 | The corner is the given position, and `x2 - x1` and `y2 - y1` give back the width and height. |
| Geometry.Center | src/main.rs:152-156 | The centre lies within `[x1, x2] × [y1, y2]` for a non-negative size. It is strictly inside when the size is at least 2. It is within half a tile of the exact midpoint, and an odd sum is rounded toward zero: down when `x1 + x2` is non-negative, up when it is negative (likewise for y). |
| Geometry.Intersects | src/main.rs:158-164 | `intersects_with`: `a.x1 <= b.x2 && a.x2 > b.x1 && a.y1 <= b.y2 && a.y2 >= b.y1`, strict on the second x comparison only. What it means is stated by the next three rows. |
| Geometry.IntersectsMeansSharedTile | src/main.rs:158-164 | For proper rectangles the test holds exactly when the two boxes, walls included, share a tile, except when `a`'s right wall column is `b`'s left wall column. |
| Geometry.IntersectsAsymmetry | src/main.rs:158-164 | The test holds for `(a, b)` but not for `(b, a)` exactly when `a.x1 == b.x2` and the rest of the test holds. The y part is symmetric. |
| Geometry.AsymmetryWitness | src/main.rs:158-164 | Concrete rooms side by side: one ordering intersects and the other does not. |
| Geometry.SeparatedInteriorsDisjoint | src/main.rs:158-164 | Two rooms that do not intersect have no interior tile in common, in either check order. |
| Tiles.Empty | src/main.rs:126-131 | `Tile::empty()`: neither blocks movement nor blocks sight. |
| Tiles.Wall | src/main.rs:133-138 | `Tile::wall()`: blocks both movement and sight. |
| Tiles.Filled | src/main.rs:205 | The initial map has `width` columns of `height` tiles, every one of them a blocked wall. |
| Tiles.CarveOnlyOpens | src/main.rs:126-131 | Carving writes only `Tile::empty()`. Open tiles stay open, every tile stays a wall or floor, and every carved tile is open. |
| Tiles.RowOrderIrrelevant | src/main.rs:274-279 | Swapping the two end columns of a horizontal tunnel gives the same map. |
| Tiles.ColumnOrderIrrelevant | src/main.rs:281-286 | Swapping the two end rows of a vertical tunnel gives the same map. |
| Carving.CreateRoom | src/main.rs:264-271 | The tiles with `x1 < x < x2` and `y1 < y < y2` become floor. Walls, outside tiles and the map's shape are unchanged. The result is `Carve` of the room interior. |
| Carving.CreateHTunnel | src/main.rs:274-279 | Row `y` from `min(x1, x2)` to `max(x1, x2)` inclusive becomes floor and nothing else changes. The result is the same in either argument order. |
| Carving.CreateVTunnel | src/main.rs:281-286 | Column `x` from `min(y1, y2)` to `max(y1, y2)` inclusive becomes floor and nothing else changes. The result is the same in either argument order. |
| Dungeon.Candidate | src/main.rs:216 | The candidate room is `Rect::new(x, y, w, h)` of one attempt's draws. |
| Dungeon.AnyIntersects | src/main.rs:219-221 | True exactly when the candidate intersects some accepted room, tested as `candidate.intersects_with(other)`. |
| Dungeon.ConnectCarvesCorridor | src/main.rs:243-252 | For either coin outcome, exactly the tiles on the two legs of the L become floor and nothing else changes. The L through corner `(new_x, prev_y)` or `(prev_x, new_y)` is a walk of open tiles from the previous centre to the new one. |
| Dungeon.Connect | src/main.rs:243-252 | Keeps the map `MAP_WIDTH` × `MAP_HEIGHT`. On heads it carves `create_h_tunnel(prev_x, new_x, prev_y)` then `create_v_tunnel(prev_y, new_y, new_x)`; on tails `create_v_tunnel(prev_y, new_y, prev_x)` then `create_h_tunnel(prev_x, new_x, new_y)`. The carved tiles are stated by `ConnectCarvesCorridor`. |
| Dungeon.Accept | src/main.rs:223-256 | Keeps every room on a map of the right size and appends the room to the list. It carves the room's interior, then puts the player at its centre if it is the first room, or runs `Connect` from the previous room's centre. The effect on tiles and player is stated by `AcceptCarves`: exactly the interior and the corridor change. |
| Dungeon.AcceptCarves | src/main.rs:223-256 | Accepting a room sets exactly its interior and, after the first room, the L corridor from the previous room's centre to floor. Every other tile keeps its value. The player moves to the room's centre if it is the first room, and otherwise stays where it was. |
| Dungeon.Place | src/main.rs:209-257 | One loop iteration keeps every room on a map of the right size. It returns the state unchanged when `AnyIntersects` finds an overlap, and otherwise the result of `Accept` with the attempt's coin. |
| Dungeon.PlaceAccepts | src/main.rs:216-256 | A candidate is appended to the rooms exactly when it intersects no accepted room. A rejected attempt changes nothing, and after any attempt at least one room exists. |
| Dungeon.PlaceGrows | src/main.rs:216-256 | One attempt appends at most one room and keeps the earlier ones in order. Into an empty list it appends its own candidate, and once a room exists the player does not move. |
| Dungeon.PlaceKeepsValid | src/main.rs:208-257 | Each iteration keeps the invariant and never blocks an open tile. The invariant: the map shape, every tile a wall or floor, every room on the map with a drawn size, rooms non-intersecting in check order, every room's interior floor, and the player at the first room's centre. |
| Dungeon.PlaceKeepsLinked | src/main.rs:236-252 | A later accepted room is joined to the previous one by the L walk that matches the coin, and links between earlier rooms survive. |
| Dungeon.Run | src/main.rs:208-258 | Over any number of attempts: the invariant holds, no open tile is re-blocked, and rooms are only appended, at most one per attempt. When no room has been accepted yet, the first attempt's candidate becomes the first room, and the player changes only when the first room is accepted. |
| Dungeon.MakeMap | src/main.rs:203-261 | The map is `MAP_WIDTH` × `MAP_HEIGHT` of walls and floors, so `blocked == block_sight` holds everywhere. At most `MAX_ROOMS` rooms are accepted. When `MAX_ROOMS > 0` the first attempt's room is always accepted and is the first room. Every room lies on the map with its interior floor, no room intersects an earlier one, and the player is at the first room's centre (or where it started if no room was accepted). |
| Dungeon.MakeMapLinked | src/main.rs:230-256 | Each accepted room after the first is connected through open tiles to the room accepted before it. |
| Dungeon.MakeMapReachable | src/main.rs:232-256 | From the player's starting tile every later room's centre is reachable over open tiles. |
| Dungeon.MakeMapExplained | src/main.rs:223-256 | Every open tile of the finished map lies inside an accepted room or on the L corridor between two consecutive rooms, for one of the coin's values. So a room's wall stays wall unless a tunnel or another room's interior crosses it. |
| Dungeon.MakeMapBorderWalls | src/main.rs:264-286 | With rooms of size two or more (the source uses 6 to 10), every tile of the map's outer ring is still a wall. |
| Dungeon.MakeMapSpawnOnFloor | src/main.rs:232-235 | With rooms of size two or more and at least one attempt, the player starts on an open tile. |
| Dungeon.SourceConfigValid | src/main.rs:11-18 | The source's constants give non-empty `gen_range` ranges and rooms of size at least two. |
| Movement.MoveBy | src/main.rs:109-114 | The lookup panics exactly when `(x + dx, y + dy)` is off the map, and the glyph is never changed. |
| Movement.MoveExactlyWhenOpen | src/main.rs:109-114 | An in-bounds move lands on `(x + dx, y + dy)` when that tile is not blocked, and otherwise leaves the object unchanged. |
| Movement.MoveKeepsOnFloor | src/main.rs:109-114 | An object on an open tile is on an open tile after any move. |
| Movement.MoveUndo | src/main.rs:109-114 | From an open tile, a move that changed the position is undone by the move `(-dx, -dy)`. |
| Movement.StepFromFloorInBounds | src/main.rs:308-311 | On a generated map, a one-tile step from an open tile (the arrow-key moves) never indexes off the map. |

## Left out

- `main`, `render_all`, `handle_keys`, `Object::draw`, `Object::new` and the `Tcod` struct: window, console, font, keyboard and colour I/O through libtcod. The object's colour is not modelled because it is only drawn.
- `rand::thread_rng().gen_range` and `rand::random()`: replaced by a sequence of pre-drawn attempts in the ranges the `gen_range` calls at src/main.rs:210-214 allow. The distribution is not modelled.
- 32-bit arithmetic: coordinates are unbounded integers. The i32 sums in `Rect::new`, `center` and `move_by` cannot overflow for map-sized values, so wrap-around and overflow panics are not modelled.
- Dungeon.ValidConfig: the source has fixed constants and no configuration error, and `SourceConfigValid` shows its constants qualify. The precondition excludes three kinds of `Config`:
  - one whose `gen_range` ranges would be empty, which would make `gen_range` panic;
  - a negative `MAX_ROOMS`, although the source would simply run zero attempts;
  - a negative minimum room size, although its ranges are non-empty.
  The last two are not `gen_range` conditions. The model makes no promise for them.
- Field of view, exploration memory and the lit/remembered/unknown rendering tiers: the code does not implement them.
- The accepted-room list is local to `make_map` in the source. The model returns it alongside the map so that properties about the rooms can be stated.
- Screen size, FPS and colour constants.

=== FILE: carving.dfy ===
/**
 * The three carving routines as the source writes them: nested `for` loops
 * that write `Tile::empty()` one index at a time. Each is proved to produce
 * exactly `Carve` of its region.
 */
module Carving {
  import opened Geometry
  import opened Tiles

  /** `create_room`: clears the tiles strictly inside `room`, walls excluded. */
  method CreateRoom(room: Rect, m: Map) returns (m': Map)
    requires Fits(m, Interior(room))
    ensures SameShape(m, m')
    ensures forall x, y :: InBounds(m, x, y) ==>
              m'[x][y] == if room.x1 < x < room.x2 && room.y1 < y < room.y2 then Empty else m[x][y]
    ensures m' == Carve(m, Interior(room))
  {
    m' := m;
    var x := room.x1 + 1;
    while x < room.x2
      invariant room.x1 < x
      invariant SameShape(m, m')
      invariant forall i, j :: InBounds(m, i, j) ==>
                  m'[i][j] == if InInterior(room, i, j) && i < x then Empty else m[i][j]
      decreases room.x2 - x
    {
      var y := room.y1 + 1;
      while y < room.y2
        invariant room.y1 < y
        invariant SameShape(m, m')
        invariant forall i, j :: InBounds(m, i, j) ==>
                    m'[i][j] == if InInterior(room, i, j) && (i < x || (i == x && j < y)) then Empty else m[i][j]
        decreases room.y2 - y
      {
        assert Covers(Interior(room), x, y);
        m' := m'[x := m'[x][y := Empty]];
        y := y + 1;
      }
      x := x + 1;
    }
    PointwiseEqual(m', Carve(m, Interior(room)));
  }

  /** `create_h_tunnel`: clears row `y` from column `min(x1, x2)` to `max(x1, x2)` inclusive. */
  method CreateHTunnel(x1: int, x2: int, y: int, m: Map) returns (m': Map)
    requires Fits(m, Row(x1, x2, y))
    ensures SameShape(m, m')
    ensures forall x, j :: InBounds(m, x, j) ==>
              m'[x][j] == if j == y && Min(x1, x2) <= x <= Max(x1, x2) then Empty else m[x][j]
    ensures m' == Carve(m, Row(x1, x2, y)) == Carve(m, Row(x2, x1, y))
  {
    m' := m;
    var x := Min(x1, x2);
    while x < Max(x1, x2) + 1
      invariant Min(x1, x2) <= x
      invariant SameShape(m, m')
      invariant forall i, j :: InBounds(m, i, j) ==>
                  m'[i][j] == if Covers(Row(x1, x2, y), i, j) && i < x then Empty else m[i][j]
      decreases Max(x1, x2) + 1 - x
    {
      assert Covers(Row(x1, x2, y), x, y);
      m' := m'[x := m'[x][y := Empty]];
      x := x + 1;
    }
    PointwiseEqual(m', Carve(m, Row(x1, x2, y)));
    RowOrderIrrelevant(m, x1, x2, y);
  }

  /** `create_v_tunnel`: clears column `x` from row `min(y1, y2)` to `max(y1, y2)` inclusive. */
  method CreateVTunnel(y1: int, y2: int, x: int, m: Map) returns (m': Map)
    requires Fits(m, Column(y1, y2, x))
    ensures SameShape(m, m')
    ensures forall i, y :: InBounds(m, i, y) ==>
              m'[i][y] == if i == x && Min(y1, y2) <= y <= Max(y1, y2) then Empty else m[i][y]
    ensures m' == Carve(m, Column(y1, y2, x)) == Carve(m, Column(y2, y1, x))
  {
    m' := m;
    var y := Min(y1, y2);
    while y < Max(y1, y2) + 1
      invariant Min(y1, y2) <= y
      invariant SameShape(m, m')
      invariant forall i, j :: InBounds(m, i, j) ==>
                  m'[i][j] == if Covers(Column(y1, y2, x), i, j) && j < y then Empty else m[i][j]
      decreases Max(y1, y2) + 1 - y
    {
      assert Covers(Column(y1, y2, x), x, y);
      m' := m'[x := m'[x][y := Empty]];
      y := y + 1;
    }
    PointwiseEqual(m', Carve(m, Column(y1, y2, x)));
    ColumnOrderIrrelevant(m, y1, y2, x);
  }
}

=== FILE: dungeon.dfy ===
/**
 * `make_map`: a fixed number of placement attempts, each drawing a room size
 * and position, rejecting rooms that intersect an accepted one, and carving
 * accepted rooms joined centre to centre by L-shaped corridors.
 */
module Dungeon {
  import opened Geometry
  import opened Tiles
  import opened Paths

  /** The map size, room size bounds and number of placement attempts. */
  datatype Config = Config(mapWidth: int, mapHeight: int, roomMinSize: int, roomMaxSize: int, maxRooms: int)

  /** `MAP_WIDTH`, `MAP_HEIGHT`, `ROOM_MIN_SIZE`, `ROOM_MAX_SIZE` and `MAX_ROOMS`. */
  const Source := Config(80, 45, 6, 10, 30)

  /**
   * Sizes are not negative, and every range handed to `gen_range` is
   * non-empty: `[min, max + 1)` for sizes, `[0, width - w)` and `[0, height - h)`
   * for the position.
   */
  predicate ValidConfig(c: Config) {
    && 0 <= c.roomMinSize <= c.roomMaxSize
    && c.roomMaxSize < c.mapWidth
    && c.roomMaxSize < c.mapHeight
    && 0 <= c.maxRooms
  }

  lemma SourceConfigValid()
    ensures ValidConfig(Source) && Source.roomMinSize >= 2
  {
  }

  /**
   * The random draws of one iteration of the placement loop: the room's size
   * and position, and the coin that orients its corridor. The coin is only
   * looked at when the room is accepted and is not the first.
   */
  datatype Attempt = Attempt(w: int, h: int, x: int, y: int, horizontalFirst: bool)

  /** The draws lie in the ranges `gen_range` guarantees. */
  predicate ValidAttempt(c: Config, a: Attempt) {
    && c.roomMinSize <= a.w <= c.roomMaxSize
    && c.roomMinSize <= a.h <= c.roomMaxSize
    && 0 <= a.x < c.mapWidth - a.w
    && 0 <= a.y < c.mapHeight - a.h
  }

  ghost predicate ValidAttempts(c: Config, attempts: seq<Attempt>) {
    forall i :: 0 <= i < |attempts| ==> ValidAttempt(c, attempts[i])
  }

  function Candidate(a: Attempt): Rect {
    NewRect(a.x, a.y, a.w, a.h)
  }

  /** The state of `make_map` between attempts: the map, the accepted rooms in order, the player. */
  datatype Level = Level(tiles: Map, rooms: seq<Rect>, player: Pos)

  predicate OnMap(c: Config, p: Pos) {
    0 <= p.x < c.mapWidth && 0 <= p.y < c.mapHeight
  }

  /** The room lies on the map, walls included, with a drawn size. */
  predicate InsideMap(c: Config, r: Rect) {
    && 0 <= r.x1 <= r.x2 < c.mapWidth
    && 0 <= r.y1 <= r.y2 < c.mapHeight
    && c.roomMinSize <= r.x2 - r.x1 <= c.roomMaxSize
    && c.roomMinSize <= r.y2 - r.y1 <= c.roomMaxSize
  }

  /** Every interior tile of the room is floor. */
  ghost predicate RoomCarved(m: Map, r: Rect) {
    forall x, y :: InInterior(r, x, y) ==> InBounds(m, x, y) && m[x][y] == Empty
  }

  /** What holds of the state after every iteration of the placement loop. */
  ghost predicate Valid(c: Config, lv: Level) {
    && IsMap(lv.tiles, c.mapWidth, c.mapHeight)
    && WallsAndFloors(lv.tiles)
    && (forall i :: 0 <= i < |lv.rooms| ==> InsideMap(c, lv.rooms[i]))
    && (forall i, j :: 0 <= j < i < |lv.rooms| ==> !Intersects(lv.rooms[i], lv.rooms[j]))
    && (forall i :: 0 <= i < |lv.rooms| ==> RoomCarved(lv.tiles, lv.rooms[i]))
    && (|lv.rooms| > 0 ==> lv.player == Center(lv.rooms[0]))
  }

  /** `rooms.iter().any(|other| room.intersects_with(other))`. */
  function AnyIntersects(room: Rect, rooms: seq<Rect>): (b: bool)
    ensures b <==> exists i :: 0 <= i < |rooms| && Intersects(room, rooms[i])
  {
    if |rooms| == 0 then false
    else Intersects(room, rooms[0]) || AnyIntersects(room, rooms[1..])
  }

  /** The tile `p` lies on the L-shaped corridor from `prev` to `next`. */
  predicate OnCorridor(prev: Pos, next: Pos, horizontalFirst: bool, p: Pos) {
    var k := Corner(prev, next, horizontalFirst);
    Between(prev, k, p) || Between(k, next, p)
  }

  /** The tunnel carved first: `create_h_tunnel(prev_x, new_x, prev_y)` or `create_v_tunnel(prev_y, new_y, prev_x)`. */
  function FirstLeg(prev: Pos, next: Pos, horizontalFirst: bool): Region {
    if horizontalFirst then Row(prev.x, next.x, prev.y) else Column(prev.y, next.y, prev.x)
  }

  /** The tunnel carved second: `create_v_tunnel(prev_y, new_y, new_x)` or `create_h_tunnel(prev_x, new_x, new_y)`. */
  function SecondLeg(prev: Pos, next: Pos, horizontalFirst: bool): Region {
    if horizontalFirst then Column(prev.y, next.y, next.x) else Row(prev.x, next.x, next.y)
  }

  lemma LegsFit(c: Config, m: Map, prev: Pos, next: Pos, horizontalFirst: bool)
    requires IsMap(m, c.mapWidth, c.mapHeight) && OnMap(c, prev) && OnMap(c, next)
    ensures Fits(m, FirstLeg(prev, next, horizontalFirst))
    ensures Fits(m, SecondLeg(prev, next, horizontalFirst))
  {
  }

  /**
   * The coin-flip branch of `make_map`: a horizontal then a vertical tunnel,
   * or a vertical then a horizontal one, from `prev` to `next`.
   */
  function Connect(c: Config, m: Map, prev: Pos, next: Pos, horizontalFirst: bool): (m': Map)
    requires IsMap(m, c.mapWidth, c.mapHeight) && OnMap(c, prev) && OnMap(c, next)
    ensures IsMap(m', c.mapWidth, c.mapHeight)
  {
    LegsFit(c, m, prev, next, horizontalFirst);
    var m1 := Carve(m, FirstLeg(prev, next, horizontalFirst));
    LegsFit(c, m1, prev, next, horizontalFirst);
    Carve(m1, SecondLeg(prev, next, horizontalFirst))
  }

  /**
   * Whichever way the coin falls, the corridor tiles become floor, nothing
   * else changes, and the L through the corner is a walk from `prev` to `next`.
   */
  lemma ConnectCarvesCorridor(c: Config, m: Map, prev: Pos, next: Pos, horizontalFirst: bool)
    requires IsMap(m, c.mapWidth, c.mapHeight) && OnMap(c, prev) && OnMap(c, next)
    ensures forall x, y :: InBounds(m, x, y) ==>
              Connect(c, m, prev, next, horizontalFirst)[x][y]
              == if OnCorridor(prev, next, horizontalFirst, Pos(x, y)) then Empty else m[x][y]
    ensures IsWalk(Connect(c, m, prev, next, horizontalFirst), LWalk(prev, next, horizontalFirst), prev, next)
  {
    var r1, r2 := FirstLeg(prev, next, horizontalFirst), SecondLeg(prev, next, horizontalFirst);
    LegsFit(c, m, prev, next, horizontalFirst);
    var m1 := Carve(m, r1);
    LegsFit(c, m1, prev, next, horizontalFirst);
    var m' := Carve(m1, r2);
    assert m' == Connect(c, m, prev, next, horizontalFirst);
    forall x, y | InBounds(m, x, y)
      ensures m'[x][y] == if OnCorridor(prev, next, horizontalFirst, Pos(x, y)) then Empty else m[x][y]
    {
      assert OnCorridor(prev, next, horizontalFirst, Pos(x, y)) <==> Covers(r1, x, y) || Covers(r2, x, y);
    }
    var k := Corner(prev, next, horizontalFirst);
    forall r | Between(prev, k, r) ensures Open(m', r) {
      assert Covers(r1, r.x, r.y);
    }
    forall r | Between(k, next, r) ensures Open(m', r) {
      assert Covers(r2, r.x, r.y);
    }
    LineIsWalk(m', prev, k);
    LineIsWalk(m', k, next);
    WalkConcat(m', Line(prev, k), Line(k, next), prev, k, next);
  }

  /** The state has a well-formed map and every accepted room lies on it. */
  predicate Placed(c: Config, lv: Level) {
    IsMap(lv.tiles, c.mapWidth, c.mapHeight) && forall i :: 0 <= i < |lv.rooms| ==> InsideMap(c, lv.rooms[i])
  }

  /**
   * The accepting branch of the placement loop: carve the room, then either
   * put the player at its centre (first room) or tunnel to the previous room.
   */
  function Accept(c: Config, lv: Level, room: Rect, horizontalFirst: bool): (lv': Level)
    requires Placed(c, lv) && InsideMap(c, room)
    ensures Placed(c, lv') && lv'.rooms == lv.rooms + [room]
  {
    assert Fits(lv.tiles, Interior(room));
    var m1 := Carve(lv.tiles, Interior(room));
    var here := Center(room);
    if |lv.rooms| == 0 then Level(m1, [room], here)
    else
      var prev := Center(lv.rooms[|lv.rooms| - 1]);
      assert InsideMap(c, lv.rooms[|lv.rooms| - 1]);
      Level(Connect(c, m1, prev, here, horizontalFirst), lv.rooms + [room], lv.player)
  }

  /** One iteration of the placement loop of `make_map`. */
  function Place(c: Config, lv: Level, a: Attempt): (lv': Level)
    requires ValidConfig(c) && ValidAttempt(c, a) && Placed(c, lv)
    ensures Placed(c, lv')
  {
    var room := Candidate(a);
    if AnyIntersects(room, lv.rooms) then lv else Accept(c, lv, room, a.horizontalFirst)
  }

  /** The room is taken exactly when it intersects no room accepted so far; a rejected attempt changes nothing. */
  lemma PlaceAccepts(c: Config, lv: Level, a: Attempt)
    requires ValidConfig(c) && ValidAttempt(c, a) && Placed(c, lv)
    ensures (exists i :: 0 <= i < |lv.rooms| && Intersects(Candidate(a), lv.rooms[i])) ==> Place(c, lv, a) == lv
    ensures (forall i :: 0 <= i < |lv.rooms| ==> !Intersects(Candidate(a), lv.rooms[i])) ==>
              Place(c, lv, a).rooms == lv.rooms + [Candidate(a)]
    ensures |Place(c, lv, a).rooms| > 0
    ensures |lv.rooms| > 0 ==> Place(c, lv, a).player == lv.player
  {
  }

  /** One attempt appends at most one room, and into an empty list it appends its own candidate. */
  lemma PlaceGrows(c: Config, lv: Level, a: Attempt)
    requires ValidConfig(c) && ValidAttempt(c, a) && Placed(c, lv)
    ensures |lv.rooms| <= |Place(c, lv, a).rooms| <= |lv.rooms| + 1
    ensures Place(c, lv, a).rooms[..|lv.rooms|] == lv.rooms
    ensures |lv.rooms| == 0 ==> Place(c, lv, a).rooms == [Candidate(a)]
    ensures |lv.rooms| > 0 ==> Place(c, lv, a).player == lv.player
  {
  }

  /**
   * The tiles accepting `room` writes: its interior and, after the first
   * room, the corridor from the previous room's centre to its own.
   */
  predicate AcceptOpens(lv: Level, room: Rect, horizontalFirst: bool, x: int, y: int) {
    || InInterior(room, x, y)
    || (|lv.rooms| > 0 && OnCorridor(Center(lv.rooms[|lv.rooms| - 1]), Center(room), horizontalFirst, Pos(x, y)))
  }

  /**
   * Accepting sets exactly the room's interior and its corridor to floor and
   * leaves every other tile as it was; the player goes to the first room.
   */
  lemma AcceptCarves(c: Config, lv: Level, room: Rect, horizontalFirst: bool)
    requires Placed(c, lv) && InsideMap(c, room)
    ensures forall x, y :: InBounds(lv.tiles, x, y) ==>
              Accept(c, lv, room, horizontalFirst).tiles[x][y]
              == if AcceptOpens(lv, room, horizontalFirst, x, y) then Empty else lv.tiles[x][y]
    ensures forall x, y :: InBounds(lv.tiles, x, y) ==>
              Accept(c, lv, room, horizontalFirst).tiles[x][y] == lv.tiles[x][y] ||
              Accept(c, lv, room, horizontalFirst).tiles[x][y] == Empty
    ensures RoomCarved(Accept(c, lv, room, horizontalFirst).tiles, room)
    ensures |lv.rooms| == 0 ==> Accept(c, lv, room, horizontalFirst).player == Center(room)
    ensures |lv.rooms| > 0 ==> Accept(c, lv, room, horizontalFirst).player == lv.player
  {
    var m1 := Carve(lv.tiles, Interior(room));
    assert RoomCarved(m1, room);
    if |lv.rooms| > 0 {
      var prev := Center(lv.rooms[|lv.rooms| - 1]);
      assert InsideMap(c, lv.rooms[|lv.rooms| - 1]);
      var m2 := Connect(c, m1, prev, Center(room), horizontalFirst);
      assert Accept(c, lv, room, horizontalFirst).tiles == m2;
      ConnectCarvesCorridor(c, m1, prev, Center(room), horizontalFirst);
      assert forall x, y :: InBounds(m1, x, y) ==> m2[x][y] == m1[x][y] || m2[x][y] == Empty;
    }
  }

  /** Accepting `room` onto a valid state, carving only floor, gives a valid state. */
  lemma AcceptValid(c: Config, lv: Level, room: Rect, lv': Level)
    requires Valid(c, lv) && InsideMap(c, room)
    requires forall i :: 0 <= i < |lv.rooms| ==> !Intersects(room, lv.rooms[i])
    requires lv'.rooms == lv.rooms + [room]
    requires IsMap(lv'.tiles, c.mapWidth, c.mapHeight)
    requires forall x, y :: InBounds(lv.tiles, x, y) ==>
               lv'.tiles[x][y] == lv.tiles[x][y] || lv'.tiles[x][y] == Empty
    requires RoomCarved(lv'.tiles, room)
    requires lv'.player == Center(lv'.rooms[0])
    ensures Valid(c, lv')
    ensures NoneReblocked(lv.tiles, lv'.tiles)
  {
    forall i | 0 <= i < |lv'.rooms|
      ensures RoomCarved(lv'.tiles, lv'.rooms[i])
    {
      if i < |lv.rooms| {
        assert RoomCarved(lv.tiles, lv.rooms[i]);
      }
    }
  }

  /** Each iteration keeps the loop invariant and never blocks an open tile. */
  lemma PlaceKeepsValid(c: Config, lv: Level, a: Attempt)
    requires ValidConfig(c) && ValidAttempt(c, a) && Valid(c, lv)
    ensures Valid(c, Place(c, lv, a))
    ensures NoneReblocked(lv.tiles, Place(c, lv, a).tiles)
  {
    var room := Candidate(a);
    if !AnyIntersects(room, lv.rooms) {
      var lv' := Accept(c, lv, room, a.horizontalFirst);
      assert Place(c, lv, a) == lv';
      AcceptCarves(c, lv, room, a.horizontalFirst);
      AcceptValid(c, lv, room, lv');
    }
  }

  /** Consecutive accepted rooms are joined by open tiles, centre to centre. */
  ghost predicate Linked(lv: Level) {
    forall i :: 1 <= i < |lv.rooms| ==>
      Connected(lv.tiles, Center(lv.rooms[i - 1]), Center(lv.rooms[i]))
  }

  /** After a later room is accepted, the L-shaped walk through the coin's corner joins it to the previous one. */
  lemma AcceptJoins(c: Config, lv: Level, room: Rect, horizontalFirst: bool)
    requires Placed(c, lv) && InsideMap(c, room) && |lv.rooms| > 0
    ensures IsWalk(Accept(c, lv, room, horizontalFirst).tiles,
                   LWalk(Center(lv.rooms[|lv.rooms| - 1]), Center(room), horizontalFirst),
                   Center(lv.rooms[|lv.rooms| - 1]), Center(room))
  {
    var m1 := Carve(lv.tiles, Interior(room));
    var prev := Center(lv.rooms[|lv.rooms| - 1]);
    assert InsideMap(c, lv.rooms[|lv.rooms| - 1]);
    ConnectCarvesCorridor(c, m1, prev, Center(room), horizontalFirst);
  }

  /** Links between rooms accepted earlier survive, and the new room is linked to the previous one. */
  lemma AcceptKeepsLinked(lv: Level, lv': Level, room: Rect, w: seq<Pos>)
    requires Linked(lv) && NoneReblocked(lv.tiles, lv'.tiles) && |lv.rooms| > 0
    requires lv'.rooms == lv.rooms + [room]
    requires IsWalk(lv'.tiles, w, Center(lv.rooms[|lv.rooms| - 1]), Center(room))
    ensures Linked(lv')
  {
    var n := |lv.rooms|;
    forall i | 1 <= i < |lv'.rooms|
      ensures Connected(lv'.tiles, Center(lv'.rooms[i - 1]), Center(lv'.rooms[i]))
    {
      if i < n {
        assert lv'.rooms[i - 1] == lv.rooms[i - 1] && lv'.rooms[i] == lv.rooms[i];
        ConnectedSurvives(lv.tiles, lv'.tiles, Center(lv.rooms[i - 1]), Center(lv.rooms[i]));
      } else {
        assert lv'.rooms[i - 1] == lv.rooms[n - 1] && lv'.rooms[i] == room;
      }
    }
  }

  /**
   * An accepted room after the first is joined to the previous one by the
   * L-shaped walk through the corner the coin picked, and earlier links survive.
   */
  lemma PlaceKeepsLinked(c: Config, lv: Level, a: Attempt)
    requires ValidConfig(c) && ValidAttempt(c, a) && Valid(c, lv) && Linked(lv)
    ensures Linked(Place(c, lv, a))
    ensures |lv.rooms| > 0 && !AnyIntersects(Candidate(a), lv.rooms) ==>
              IsWalk(Place(c, lv, a).tiles,
                     LWalk(Center(lv.rooms[|lv.rooms| - 1]), Center(Candidate(a)), a.horizontalFirst),
                     Center(lv.rooms[|lv.rooms| - 1]), Center(Candidate(a)))
  {
    var room := Candidate(a);
    if !AnyIntersects(room, lv.rooms) && |lv.rooms| > 0 {
      var lv' := Accept(c, lv, room, a.horizontalFirst);
      assert Place(c, lv, a) == lv';
      PlaceKeepsValid(c, lv, a);
      AcceptJoins(c, lv, room, a.horizontalFirst);
      AcceptKeepsLinked(lv, lv', room,
        LWalk(Center(lv.rooms[|lv.rooms| - 1]), Center(room), a.horizontalFirst));
    }
  }

  /** The placement loop over the remaining attempts, in order. */
  function Run(c: Config, lv: Level, attempts: seq<Attempt>): (r: Level)
    requires ValidConfig(c) && Valid(c, lv) && ValidAttempts(c, attempts)
    ensures Valid(c, r)
    ensures NoneReblocked(lv.tiles, r.tiles)
    ensures |lv.rooms| <= |r.rooms| <= |lv.rooms| + |attempts|
    ensures r.rooms[..|lv.rooms|] == lv.rooms
    ensures |attempts| > 0 ==> |r.rooms| > 0
    ensures |lv.rooms| == 0 && |attempts| > 0 ==> r.rooms[0] == Candidate(attempts[0])
    ensures |lv.rooms| > 0 || |r.rooms| == 0 ==> r.player == lv.player
    decreases |attempts|
  {
    if |attempts| == 0 then lv
    else
      PlaceKeepsValid(c, lv, attempts[0]);
      PlaceGrows(c, lv, attempts[0]);
      var next := Place(c, lv, attempts[0]);
      var r := Run(c, next, attempts[1..]);
      NoneReblockedTrans(lv.tiles, next.tiles, r.tiles);
      assert r.rooms[..|lv.rooms|] == r.rooms[..|next.rooms|][..|lv.rooms|];
      r
  }

  lemma {:induction false} RunKeepsLinked(c: Config, lv: Level, attempts: seq<Attempt>)
    requires ValidConfig(c) && Valid(c, lv) && ValidAttempts(c, attempts) && Linked(lv)
    ensures Linked(Run(c, lv, attempts))
    decreases |attempts|
  {
    if |attempts| > 0 {
      PlaceKeepsValid(c, lv, attempts[0]);
      PlaceKeepsLinked(c, lv, attempts[0]);
      RunKeepsLinked(c, Place(c, lv, attempts[0]), attempts[1..]);
    }
  }

  /**
   * `make_map`: a map that starts as all walls, `maxRooms` placement
   * attempts, and the player moved to the first accepted room's centre.
   */
  function MakeMap(c: Config, attempts: seq<Attempt>, start: Pos): (lv: Level)
    requires ValidConfig(c) && |attempts| == c.maxRooms && ValidAttempts(c, attempts)
    ensures IsMap(lv.tiles, c.mapWidth, c.mapHeight)
    ensures forall x, y :: InBounds(lv.tiles, x, y) ==> lv.tiles[x][y] == Wall || lv.tiles[x][y] == Empty
    ensures forall x, y :: InBounds(lv.tiles, x, y) ==> lv.tiles[x][y].blocked == lv.tiles[x][y].blockSight
    ensures |lv.rooms| <= c.maxRooms
    ensures c.maxRooms > 0 ==> |lv.rooms| > 0 && lv.rooms[0] == Candidate(attempts[0])
    ensures forall i :: 0 <= i < |lv.rooms| ==> InsideMap(c, lv.rooms[i])
    ensures forall i :: 0 <= i < |lv.rooms| ==> RoomCarved(lv.tiles, lv.rooms[i])
    ensures forall i, j :: 0 <= j < i < |lv.rooms| ==> !Intersects(lv.rooms[i], lv.rooms[j])
    ensures lv.player == if |lv.rooms| > 0 then Center(lv.rooms[0]) else start
  {
    Run(c, Initial(c, start), attempts)
  }

  /** The state before the loop: all walls, no rooms, the player where it was. */
  function Initial(c: Config, start: Pos): (lv: Level)
    requires ValidConfig(c)
    ensures Valid(c, lv) && Linked(lv)
  {
    Level(Filled(c.mapWidth, c.mapHeight), [], start)
  }

  /** Every accepted room after the first is joined to the one accepted before it. */
  lemma MakeMapLinked(c: Config, attempts: seq<Attempt>, start: Pos)
    requires ValidConfig(c) && |attempts| == c.maxRooms && ValidAttempts(c, attempts)
    ensures forall i :: 1 <= i < |MakeMap(c, attempts, start).rooms| ==>
              Connected(MakeMap(c, attempts, start).tiles,
                        Center(MakeMap(c, attempts, start).rooms[i - 1]),
                        Center(MakeMap(c, attempts, start).rooms[i]))
  {
    RunKeepsLinked(c, Initial(c, start), attempts);
  }

  lemma {:induction false} ChainConnected(lv: Level, i: nat)
    requires Linked(lv) && 1 <= i < |lv.rooms|
    ensures Connected(lv.tiles, Center(lv.rooms[0]), Center(lv.rooms[i]))
  {
    if i > 1 {
      ChainConnected(lv, i - 1);
      ConnectedTrans(lv.tiles, Center(lv.rooms[0]), Center(lv.rooms[i - 1]), Center(lv.rooms[i]));
    }
  }

  /** From the first room's centre, where the player starts, every other room's centre is reachable. */
  lemma MakeMapReachable(c: Config, attempts: seq<Attempt>, start: Pos)
    requires ValidConfig(c) && |attempts| == c.maxRooms && ValidAttempts(c, attempts)
    ensures forall i :: 1 <= i < |MakeMap(c, attempts, start).rooms| ==>
              Connected(MakeMap(c, attempts, start).tiles,
                        MakeMap(c, attempts, start).player,
                        Center(MakeMap(c, attempts, start).rooms[i]))
  {
    var lv := MakeMap(c, attempts, start);
    RunKeepsLinked(c, Initial(c, start), attempts);
    forall i | 1 <= i < |lv.rooms|
      ensures Connected(lv.tiles, lv.player, Center(lv.rooms[i]))
    {
      ChainConnected(lv, i);
    }
  }

  /** The tile lies inside room `i`. */
  predicate InRoom(rooms: seq<Rect>, i: int, x: int, y: int) {
    0 <= i < |rooms| && InInterior(rooms[i], x, y)
  }

  /** The tile lies on the corridor dug, with coin `horizontalFirst`, from room `i - 1` to room `i`. */
  predicate OnLink(rooms: seq<Rect>, i: int, horizontalFirst: bool, x: int, y: int) {
    1 <= i < |rooms| && OnCorridor(Center(rooms[i - 1]), Center(rooms[i]), horizontalFirst, Pos(x, y))
  }

  /**
   * Every open tile is inside some accepted room or on a corridor between
   * consecutive rooms: in particular a room's wall stays wall unless a
   * tunnel or another room's interior crosses it.
   */
  ghost predicate Explained(lv: Level) {
    forall x, y :: InBounds(lv.tiles, x, y) && !lv.tiles[x][y].blocked ==>
      (exists i :: InRoom(lv.rooms, i, x, y)) || (exists i, hf :: OnLink(lv.rooms, i, hf, x, y))
  }

  lemma PlaceKeepsExplained(c: Config, lv: Level, a: Attempt)
    requires ValidConfig(c) && ValidAttempt(c, a) && Valid(c, lv) && Explained(lv)
    ensures Explained(Place(c, lv, a))
  {
    var room := Candidate(a);
    if !AnyIntersects(room, lv.rooms) {
      var lv' := Accept(c, lv, room, a.horizontalFirst);
      assert Place(c, lv, a) == lv';
      AcceptCarves(c, lv, room, a.horizontalFirst);
      var n := |lv.rooms|;
      assert lv'.rooms == lv.rooms + [room];
      forall x, y | InBounds(lv'.tiles, x, y) && !lv'.tiles[x][y].blocked
        ensures (exists i :: InRoom(lv'.rooms, i, x, y)) || (exists i, hf :: OnLink(lv'.rooms, i, hf, x, y))
      {
        if InInterior(room, x, y) {
          assert InRoom(lv'.rooms, n, x, y);
        } else if n > 0 && OnCorridor(Center(lv.rooms[n - 1]), Center(room), a.horizontalFirst, Pos(x, y)) {
          assert OnLink(lv'.rooms, n, a.horizontalFirst, x, y);
        } else {
          assert InBounds(lv.tiles, x, y) && lv'.tiles[x][y] == lv.tiles[x][y];
          if i :| InRoom(lv.rooms, i, x, y) {
            assert InRoom(lv'.rooms, i, x, y);
          } else {
            var i, hf :| OnLink(lv.rooms, i, hf, x, y);
            assert OnLink(lv'.rooms, i, hf, x, y);
          }
        }
      }
    }
  }

  lemma {:induction false} RunKeepsExplained(c: Config, lv: Level, attempts: seq<Attempt>)
    requires ValidConfig(c) && Valid(c, lv) && ValidAttempts(c, attempts) && Explained(lv)
    ensures Explained(Run(c, lv, attempts))
    decreases |attempts|
  {
    if |attempts| > 0 {
      PlaceKeepsValid(c, lv, attempts[0]);
      PlaceKeepsExplained(c, lv, attempts[0]);
      RunKeepsExplained(c, Place(c, lv, attempts[0]), attempts[1..]);
    }
  }

  /**
   * The finished map opens nothing beyond the room interiors and the
   * corridors: every floor tile lies inside an accepted room or on the
   * L-shaped corridor between two consecutive rooms, for one of the coin's values.
   */
  lemma MakeMapExplained(c: Config, attempts: seq<Attempt>, start: Pos)
    requires ValidConfig(c) && |attempts| == c.maxRooms && ValidAttempts(c, attempts)
    ensures Explained(MakeMap(c, attempts, start))
  {
    RunKeepsExplained(c, Initial(c, start), attempts);
  }

  /** The tile lies in the outermost ring of the map. */
  predicate OnBorder(c: Config, x: int, y: int) {
    x == 0 || x == c.mapWidth - 1 || y == 0 || y == c.mapHeight - 1
  }

  /** Every tile of the map's outer ring is a wall. */
  ghost predicate BorderWalled(c: Config, m: Map) {
    forall x, y :: InBounds(m, x, y) && OnBorder(c, x, y) ==> m[x][y] == Wall
  }

  /** A room at least two tiles wide and high has its centre off the outer ring. */
  lemma CenterOffBorder(c: Config, r: Rect)
    requires InsideMap(c, r) && c.roomMinSize >= 2
    ensures 1 <= Center(r).x <= c.mapWidth - 2 && 1 <= Center(r).y <= c.mapHeight - 2
  {
  }

  /** A room on the map carves nothing on the outer ring. */
  lemma InteriorKeepsBorder(c: Config, m: Map, room: Rect)
    requires IsMap(m, c.mapWidth, c.mapHeight) && InsideMap(c, room) && BorderWalled(c, m)
    ensures Fits(m, Interior(room))
    ensures BorderWalled(c, Carve(m, Interior(room)))
  {
    assert Fits(m, Interior(room));
    var m' := Carve(m, Interior(room));
    forall x, y | InBounds(m', x, y) && OnBorder(c, x, y)
      ensures m'[x][y] == Wall
    {
      assert !Covers(Interior(room), x, y);
    }
  }

  lemma CorridorOffBorder(c: Config, prev: Pos, next: Pos, horizontalFirst: bool, x: int, y: int)
    requires 1 <= prev.x <= c.mapWidth - 2 && 1 <= prev.y <= c.mapHeight - 2
    requires 1 <= next.x <= c.mapWidth - 2 && 1 <= next.y <= c.mapHeight - 2
    requires OnBorder(c, x, y)
    ensures !OnCorridor(prev, next, horizontalFirst, Pos(x, y))
  {
  }

  /** A corridor between two tiles off the outer ring carves nothing on it. */
  lemma CorridorKeepsBorder(c: Config, m: Map, prev: Pos, next: Pos, horizontalFirst: bool)
    requires IsMap(m, c.mapWidth, c.mapHeight) && BorderWalled(c, m)
    requires 1 <= prev.x <= c.mapWidth - 2 && 1 <= prev.y <= c.mapHeight - 2
    requires 1 <= next.x <= c.mapWidth - 2 && 1 <= next.y <= c.mapHeight - 2
    ensures BorderWalled(c, Connect(c, m, prev, next, horizontalFirst))
  {
    ConnectCarvesCorridor(c, m, prev, next, horizontalFirst);
    var m' := Connect(c, m, prev, next, horizontalFirst);
    forall x, y | InBounds(m', x, y) && OnBorder(c, x, y)
      ensures m'[x][y] == Wall
    {
      assert InBounds(m, x, y);
      CorridorOffBorder(c, prev, next, horizontalFirst, x, y);
    }
  }

  /** With rooms of size two or more, accepting a room carves nothing on the outer ring. */
  lemma AcceptKeepsBorder(c: Config, lv: Level, room: Rect, horizontalFirst: bool)
    requires Placed(c, lv) && InsideMap(c, room) && c.roomMinSize >= 2
    requires BorderWalled(c, lv.tiles)
    ensures BorderWalled(c, Accept(c, lv, room, horizontalFirst).tiles)
  {
    InteriorKeepsBorder(c, lv.tiles, room);
    var m1 := Carve(lv.tiles, Interior(room));
    if |lv.rooms| > 0 {
      var last := lv.rooms[|lv.rooms| - 1];
      assert InsideMap(c, last);
      CenterOffBorder(c, last);
      CenterOffBorder(c, room);
      CorridorKeepsBorder(c, m1, Center(last), Center(room), horizontalFirst);
    }
  }

  lemma {:induction false} RunKeepsBorder(c: Config, lv: Level, attempts: seq<Attempt>)
    requires ValidConfig(c) && Valid(c, lv) && ValidAttempts(c, attempts)
    requires c.roomMinSize >= 2 && BorderWalled(c, lv.tiles)
    ensures BorderWalled(c, Run(c, lv, attempts).tiles)
    decreases |attempts|
  {
    if |attempts| > 0 {
      var a := attempts[0];
      if !AnyIntersects(Candidate(a), lv.rooms) {
        AcceptKeepsBorder(c, lv, Candidate(a), a.horizontalFirst);
      }
      PlaceKeepsValid(c, lv, a);
      RunKeepsBorder(c, Place(c, lv, a), attempts[1..]);
    }
  }

  /**
   * With rooms of size two or more (the source draws six to ten), the outer
   * ring of the map stays wall: rooms carve only their interior and corridors
   * run between room centres.
   */
  lemma MakeMapBorderWalls(c: Config, attempts: seq<Attempt>, start: Pos)
    requires ValidConfig(c) && |attempts| == c.maxRooms && ValidAttempts(c, attempts)
    requires c.roomMinSize >= 2
    ensures forall x, y :: InBounds(MakeMap(c, attempts, start).tiles, x, y) && OnBorder(c, x, y) ==>
              MakeMap(c, attempts, start).tiles[x][y] == Wall
  {
    RunKeepsBorder(c, Initial(c, start), attempts);
  }

  /** With rooms of size two or more, the player starts on floor whenever a room was accepted. */
  lemma MakeMapSpawnOnFloor(c: Config, attempts: seq<Attempt>, start: Pos)
    requires ValidConfig(c) && |attempts| == c.maxRooms && ValidAttempts(c, attempts)
    requires c.roomMinSize >= 2 && c.maxRooms > 0
    ensures Open(MakeMap(c, attempts, start).tiles, MakeMap(c, attempts, start).player)
  {
    var lv := MakeMap(c, attempts, start);
    var p := Center(lv.rooms[0]);
    assert InsideMap(c, lv.rooms[0]) && RoomCarved(lv.tiles, lv.rooms[0]);
    assert InInterior(lv.rooms[0], p.x, p.y);
  }
}

=== FILE: geometry.dfy ===
/** Points and room rectangles of the dungeon, with the source's overlap test. */
module Geometry {

  /** A map coordinate: column `x`, row `y`. */
  datatype Pos = Pos(x: int, y: int)

  /** A room's bounding box. The tiles on its edges are the room's walls. */
  datatype Rect = Rect(x1: int, y1: int, x2: int, y2: int)

  function Min(a: int, b: int): int { if a <= b then a else b }

  function Max(a: int, b: int): int { if a <= b then b else a }

  function Abs(a: int): nat { if a < 0 then -a else a }

  /** Rust's `n / 2` on `i32`: rounds toward zero (Dafny's `/` is Euclidean). */
  function Half(n: int): (r: int)
    ensures n >= 0 ==> 0 <= n - 2 * r <= 1
    ensures n < 0 ==> 0 <= 2 * r - n <= 1
  {
    if n >= 0 then n / 2 else -((-n) / 2)
  }

  /** `Rect::new`: a rectangle from its top-left corner and its size. */
  function NewRect(x: int, y: int, w: int, h: int): (r: Rect)
    ensures r.x1 == x && r.y1 == y
    ensures r.x2 - r.x1 == w && r.y2 - r.y1 == h
  {
    Rect(x, y, x + w, y + h)
  }

  /** `Rect::center`: the midpoint, each coordinate rounded toward zero. */
  function Center(r: Rect): (c: Pos)
    ensures r.x1 <= r.x2 ==> r.x1 <= c.x <= r.x2
    ensures r.y1 <= r.y2 ==> r.y1 <= c.y <= r.y2
    ensures r.x2 - r.x1 >= 2 ==> r.x1 < c.x < r.x2
    ensures r.y2 - r.y1 >= 2 ==> r.y1 < c.y < r.y2
    ensures Abs(2 * c.x - (r.x1 + r.x2)) <= 1 && Abs(2 * c.y - (r.y1 + r.y2)) <= 1
    ensures r.x1 + r.x2 >= 0 ==> 2 * c.x <= r.x1 + r.x2
    ensures r.x1 + r.x2 < 0 ==> 2 * c.x >= r.x1 + r.x2
    ensures r.y1 + r.y2 >= 0 ==> 2 * c.y <= r.y1 + r.y2
    ensures r.y1 + r.y2 < 0 ==> 2 * c.y >= r.y1 + r.y2
  {
    Pos(Half(r.x1 + r.x2), Half(r.y1 + r.y2))
  }

  /**
   * `Rect::intersects_with`. The x-test is `<=` / `>` while the y-test is
   * `<=` / `>=`, so the relation is not symmetric.
   */
  predicate Intersects(a: Rect, b: Rect) {
    a.x1 <= b.x2 && a.x2 > b.x1 && a.y1 <= b.y2 && a.y2 >= b.y1
  }

  /** The tile (x, y) lies on the rectangle or on its border. */
  predicate OnRect(r: Rect, x: int, y: int) {
    r.x1 <= x <= r.x2 && r.y1 <= y <= r.y2
  }

  /** The tile (x, y) lies strictly inside the rectangle: the part a room carves. */
  predicate InInterior(r: Rect, x: int, y: int) {
    r.x1 < x < r.x2 && r.y1 < y < r.y2
  }

  /** Two rectangles, walls included, have a tile in common. */
  ghost predicate ShareTile(a: Rect, b: Rect) {
    exists x, y :: OnRect(a, x, y) && OnRect(b, x, y)
  }

  predicate Normal(r: Rect) {
    r.x1 <= r.x2 && r.y1 <= r.y2
  }

  /**
   * What the overlap test means for proper rectangles: the two share a tile,
   * except when `a`'s right wall column is `b`'s left wall column.
   */
  lemma IntersectsMeansSharedTile(a: Rect, b: Rect)
    requires Normal(a) && Normal(b)
    ensures Intersects(a, b) <==> ShareTile(a, b) && a.x2 != b.x1
  {
    if Intersects(a, b) {
      var x, y := Max(a.x1, b.x1), Max(a.y1, b.y1);
      assert OnRect(a, x, y) && OnRect(b, x, y);
    }
    if ShareTile(a, b) && a.x2 != b.x1 {
      var x, y :| OnRect(a, x, y) && OnRect(b, x, y);
      assert a.x1 <= x <= b.x2 && b.x1 <= x <= a.x2;
    }
  }

  /**
   * The test is symmetric on y but not on x: it holds one way only exactly
   * when `a`'s left wall is `b`'s right wall and the rest of the test holds.
   */
  lemma IntersectsAsymmetry(a: Rect, b: Rect)
    ensures Intersects(a, b) && !Intersects(b, a)
            <==> a.x1 == b.x2 && a.x2 > b.x1 && a.y1 <= b.y2 && a.y2 >= b.y1
  {
  }

  /** A concrete pair of rooms on which the test disagrees with itself. */
  lemma AsymmetryWitness()
    ensures Intersects(NewRect(10, 0, 10, 10), NewRect(0, 0, 10, 10))
    ensures !Intersects(NewRect(0, 0, 10, 10), NewRect(10, 0, 10, 10))
  {
  }

  /** A room that does not intersect another shares no interior tile with it. */
  lemma SeparatedInteriorsDisjoint(a: Rect, b: Rect, x: int, y: int)
    requires !Intersects(a, b)
    ensures !(InInterior(a, x, y) && InInterior(b, x, y))
  {
  }
}

=== FILE: movement.dfy ===
/** `Object::move_by`: an object steps onto a tile only when that tile does not block. */
module Movement {
  import opened Geometry
  import opened Tiles
  import opened Paths
  import opened Dungeon

  /** A map object: its position and the glyph it is drawn with. Its colour is only drawn. */
  datatype Object = Object(x: int, y: int, glyph: char)

  /** The outcome of a move: the object afterwards, or the index panic of an off-map target. */
  datatype Moved = Moved(obj: Object) | OutOfBounds

  function At(o: Object): Pos {
    Pos(o.x, o.y)
  }

  /** `move_by(dx, dy)`: look up `map[x + dx][y + dy]` and move there unless it is blocked. */
  function MoveBy(o: Object, dx: int, dy: int, m: Map): (r: Moved)
    ensures r.OutOfBounds? <==> !InBounds(m, o.x + dx, o.y + dy)
    ensures r.Moved? ==> r.obj.glyph == o.glyph
  {
    var tx, ty := o.x + dx, o.y + dy;
    if !InBounds(m, tx, ty) then OutOfBounds
    else if !m[tx][ty].blocked then Moved(o.(x := tx, y := ty))
    else Moved(o)
  }

  /**
   * An in-bounds move ends on the target exactly when the target is open,
   * and otherwise leaves the object where it was.
   */
  lemma MoveExactlyWhenOpen(o: Object, dx: int, dy: int, m: Map)
    requires InBounds(m, o.x + dx, o.y + dy)
    ensures MoveBy(o, dx, dy, m).Moved?
    ensures Open(m, Pos(o.x + dx, o.y + dy)) ==> At(MoveBy(o, dx, dy, m).obj) == Pos(o.x + dx, o.y + dy)
    ensures !Open(m, Pos(o.x + dx, o.y + dy)) ==> MoveBy(o, dx, dy, m).obj == o
  {
  }

  /** An object standing on an open tile is still on an open tile after any move. */
  lemma MoveKeepsOnFloor(o: Object, dx: int, dy: int, m: Map)
    requires Open(m, At(o)) && MoveBy(o, dx, dy, m).Moved?
    ensures Open(m, At(MoveBy(o, dx, dy, m).obj))
  {
  }

  /** A move that changed the position is undone by the opposite move. */
  lemma MoveUndo(o: Object, dx: int, dy: int, m: Map)
    requires Open(m, At(o))
    requires MoveBy(o, dx, dy, m).Moved? && MoveBy(o, dx, dy, m).obj != o
    ensures MoveBy(MoveBy(o, dx, dy, m).obj, -dx, -dy, m) == Moved(o)
  {
  }

  /**
   * On a generated map with rooms of size two or more, a one-tile move from
   * an open tile (the arrow keys) never indexes off the map: the outer ring
   * is all wall, so an open tile has neighbours on every side.
   */
  lemma StepFromFloorInBounds(c: Config, attempts: seq<Attempt>, start: Pos, o: Object, dx: int, dy: int)
    requires ValidConfig(c) && |attempts| == c.maxRooms && ValidAttempts(c, attempts)
    requires c.roomMinSize >= 2
    requires Open(MakeMap(c, attempts, start).tiles, At(o))
    requires Abs(dx) + Abs(dy) <= 1
    ensures MoveBy(o, dx, dy, MakeMap(c, attempts, start).tiles).Moved?
  {
    var m := MakeMap(c, attempts, start).tiles;
    MakeMapBorderWalls(c, attempts, start);
    assert !OnBorder(c, o.x, o.y);
  }
}

=== FILE: paths.dfy ===
/** Walks over open tiles, used to state that corridors connect rooms. */
module Paths {
  import opened Geometry
  import opened Tiles

  /** `p` and `q` are orthogonal neighbours: one step along one axis. */
  predicate Adjacent(p: Pos, q: Pos) {
    Abs(p.x - q.x) + Abs(p.y - q.y) == 1
  }

  /** The tile at `p` exists and does not block movement. */
  predicate Open(m: Map, p: Pos) {
    InBounds(m, p.x, p.y) && !m[p.x][p.y].blocked
  }

  /** `w` leads from `a` to `b` in single orthogonal steps over open tiles only. */
  predicate IsWalk(m: Map, w: seq<Pos>, a: Pos, b: Pos) {
    && |w| > 0 && w[0] == a && w[|w| - 1] == b
    && (forall i :: 0 <= i < |w| ==> Open(m, w[i]))
    && (forall i :: 0 <= i < |w| - 1 ==> Adjacent(w[i], w[i + 1]))
  }

  /** Some walk over open tiles leads from `a` to `b`. */
  ghost predicate Connected(m: Map, a: Pos, b: Pos) {
    exists w :: IsWalk(m, w, a, b)
  }

  function Dist(p: Pos, q: Pos): nat {
    Abs(p.x - q.x) + Abs(p.y - q.y)
  }

  /** `r` lies in the box spanned by `p` and `q`; for a straight pair, on the segment. */
  predicate Between(p: Pos, q: Pos, r: Pos) {
    Min(p.x, q.x) <= r.x <= Max(p.x, q.x) && Min(p.y, q.y) <= r.y <= Max(p.y, q.y)
  }

  /** One step from `p` toward `q`, along x first. */
  function Toward(p: Pos, q: Pos): Pos {
    if p.x < q.x then Pos(p.x + 1, p.y)
    else if p.x > q.x then Pos(p.x - 1, p.y)
    else if p.y < q.y then Pos(p.x, p.y + 1)
    else if p.y > q.y then Pos(p.x, p.y - 1)
    else p
  }

  /** The tiles visited going from `p` to `q` one step at a time, both ends included. */
  function Line(p: Pos, q: Pos): (w: seq<Pos>)
    ensures |w| == Dist(p, q) + 1
    ensures w[0] == p && w[|w| - 1] == q
    ensures forall i :: 0 <= i < |w| - 1 ==> Adjacent(w[i], w[i + 1])
    ensures forall i :: 0 <= i < |w| ==> Between(p, q, w[i])
    decreases Dist(p, q)
  {
    if p == q then [p] else [p] + Line(Toward(p, q), q)
  }

  /** Walks join end to start. */
  lemma WalkConcat(m: Map, w1: seq<Pos>, w2: seq<Pos>, a: Pos, b: Pos, c: Pos)
    requires IsWalk(m, w1, a, b) && IsWalk(m, w2, b, c)
    ensures IsWalk(m, w1 + w2[1..], a, c)
  {
    var w := w1 + w2[1..];
    assert |w| == |w1| + |w2| - 1;
    forall i | 0 <= i < |w|
      ensures Open(m, w[i])
    {
      if i >= |w1| {
        assert w[i] == w2[i - |w1| + 1];
      }
    }
    forall i | 0 <= i < |w| - 1
      ensures Adjacent(w[i], w[i + 1])
    {
      if i < |w1| - 1 {
        assert w[i] == w1[i] && w[i + 1] == w1[i + 1];
      } else if i == |w1| - 1 {
        assert w[i] == w2[0] && w[i + 1] == w2[1];
      } else {
        assert w[i] == w2[i - |w1| + 1] && w[i + 1] == w2[i - |w1| + 2];
      }
    }
  }

  /** Connectivity is transitive. */
  lemma ConnectedTrans(m: Map, a: Pos, b: Pos, c: Pos)
    requires Connected(m, a, b) && Connected(m, b, c)
    ensures Connected(m, a, c)
  {
    var w1 :| IsWalk(m, w1, a, b);
    var w2 :| IsWalk(m, w2, b, c);
    WalkConcat(m, w1, w2, a, b, c);
  }

  /** A walk stays a walk when no tile gets blocked. */
  lemma WalkSurvives(m: Map, m': Map, w: seq<Pos>, a: Pos, b: Pos)
    requires NoneReblocked(m, m') && IsWalk(m, w, a, b)
    ensures IsWalk(m', w, a, b)
  {
    forall i | 0 <= i < |w|
      ensures Open(m', w[i])
    {
      assert Open(m, w[i]);
    }
  }

  lemma ConnectedSurvives(m: Map, m': Map, a: Pos, b: Pos)
    requires NoneReblocked(m, m') && Connected(m, a, b)
    ensures Connected(m', a, b)
  {
    var w :| IsWalk(m, w, a, b);
    WalkSurvives(m, m', w, a, b);
  }

  /** A straight line whose every tile is open is a walk. */
  lemma LineIsWalk(m: Map, p: Pos, q: Pos)
    requires forall r :: Between(p, q, r) ==> Open(m, r)
    ensures IsWalk(m, Line(p, q), p, q)
  {
    var w := Line(p, q);
    forall i | 0 <= i < |w|
      ensures Open(m, w[i])
    {
      assert Between(p, q, w[i]);
    }
  }

  /** The corner of the L-shaped corridor from `prev` to `next`. */
  function Corner(prev: Pos, next: Pos, horizontalFirst: bool): Pos {
    if horizontalFirst then Pos(next.x, prev.y) else Pos(prev.x, next.y)
  }

  /** The L-shaped corridor from `prev` through its corner to `next`. */
  function LWalk(prev: Pos, next: Pos, horizontalFirst: bool): (w: seq<Pos>)
    ensures Corner(prev, next, horizontalFirst) in w
  {
    var c := Corner(prev, next, horizontalFirst);
    Line(prev, c) + Line(c, next)[1..]
  }
}

=== FILE: tiles.dfy ===
/** Tiles, the column-major tile map, and carving a region of it to floor. */
module Tiles {
  import opened Geometry

  /** A map tile: whether it stops movement and whether it stops sight. */
  datatype Tile = Tile(blocked: bool, blockSight: bool)

  /** `Tile::empty`: floor. */
  const Empty := Tile(false, false)

  /** `Tile::wall`. */
  const Wall := Tile(true, true)

  /** The map, indexed `m[x][y]`: one inner sequence per column. */
  type Map = seq<seq<Tile>>

  /** `m` has `width` columns of `height` tiles each. */
  predicate IsMap(m: Map, width: int, height: int) {
    |m| == width && forall x :: 0 <= x < |m| ==> |m[x]| == height
  }

  /** Indexing `m[x][y]` does not panic. */
  predicate InBounds(m: Map, x: int, y: int) {
    0 <= x < |m| && 0 <= y < |m[x]|
  }

  /** `m` and `m'` have the same columns, each of the same height. */
  predicate SameShape(m: Map, m': Map) {
    |m'| == |m| && forall x :: 0 <= x < |m| ==> |m'[x]| == |m[x]|
  }

  /** Every tile is either a wall or floor, so `blocked == blockSight` everywhere. */
  ghost predicate WallsAndFloors(m: Map) {
    forall x, y :: InBounds(m, x, y) ==> m[x][y] == Wall || m[x][y] == Empty
  }

  /** No tile that is open in `m` is blocked in `m'`. */
  ghost predicate NoneReblocked(m: Map, m': Map) {
    SameShape(m, m') &&
    forall x, y :: InBounds(m, x, y) && !m[x][y].blocked ==> !m'[x][y].blocked
  }

  /** The map of `vec![vec![Tile::wall(); height]; width]`. */
  function Filled(width: nat, height: nat): (m: Map)
    ensures IsMap(m, width, height) && WallsAndFloors(m)
    ensures forall x, y :: InBounds(m, x, y) ==> m[x][y].blocked
  {
    seq(width, _ => seq(height, _ => Wall))
  }

  /** A set of tiles that one of the carving functions turns into floor. */
  datatype Region =
    | Interior(room: Rect)                 // `create_room`
    | Row(xa: int, xb: int, row: int)      // `create_h_tunnel(xa, xb, row)`
    | Column(ya: int, yb: int, col: int)   // `create_v_tunnel(ya, yb, col)`

  predicate Covers(r: Region, x: int, y: int) {
    match r
    case Interior(room) => InInterior(room, x, y)
    case Row(xa, xb, row) => y == row && Min(xa, xb) <= x <= Max(xa, xb)
    case Column(ya, yb, col) => x == col && Min(ya, yb) <= y <= Max(ya, yb)
  }

  /** Every tile of the region can be indexed; the source panics otherwise. */
  ghost predicate Fits(m: Map, r: Region) {
    forall x, y :: Covers(r, x, y) ==> InBounds(m, x, y)
  }

  /** The map after every tile of `r` is set to floor. */
  function Carve(m: Map, r: Region): (m': Map)
    requires Fits(m, r)
    ensures SameShape(m, m')
    ensures forall x, y :: InBounds(m, x, y) ==>
              m'[x][y] == if Covers(r, x, y) then Empty else m[x][y]
  {
    seq(|m|, x requires 0 <= x < |m| =>
      seq(|m[x]|, y requires 0 <= y < |m[x]| =>
        if Covers(r, x, y) then Empty else m[x][y]))
  }

  /** Carving only ever writes floor: open tiles stay open and walls are never created. */
  lemma CarveOnlyOpens(m: Map, r: Region)
    requires Fits(m, r)
    ensures NoneReblocked(m, Carve(m, r))
    ensures WallsAndFloors(m) ==> WallsAndFloors(Carve(m, r))
    ensures forall x, y :: Covers(r, x, y) ==> !Carve(m, r)[x][y].blocked
  {
  }

  lemma NoneReblockedTrans(a: Map, b: Map, c: Map)
    requires NoneReblocked(a, b) && NoneReblocked(b, c)
    ensures NoneReblocked(a, c)
  {
  }

  /** Two maps of the same shape that agree on every tile are equal. */
  lemma PointwiseEqual(a: Map, b: Map)
    requires SameShape(a, b)
    requires forall x, y :: InBounds(a, x, y) ==> a[x][y] == b[x][y]
    ensures a == b
  {
    forall x | 0 <= x < |a|
      ensures a[x] == b[x]
    {
      assert forall y :: 0 <= y < |a[x]| ==> InBounds(a, x, y);
    }
  }

  /** `create_h_tunnel` does not depend on the order of its two end columns. */
  lemma RowOrderIrrelevant(m: Map, xa: int, xb: int, row: int)
    requires Fits(m, Row(xa, xb, row))
    ensures Fits(m, Row(xb, xa, row))
    ensures Carve(m, Row(xa, xb, row)) == Carve(m, Row(xb, xa, row))
  {
    assert forall x, y :: Covers(Row(xa, xb, row), x, y) <==> Covers(Row(xb, xa, row), x, y);
    PointwiseEqual(Carve(m, Row(xa, xb, row)), Carve(m, Row(xb, xa, row)));
  }

  /** `create_v_tunnel` does not depend on the order of its two end rows. */
  lemma ColumnOrderIrrelevant(m: Map, ya: int, yb: int, col: int)
    requires Fits(m, Column(ya, yb, col))
    ensures Fits(m, Column(yb, ya, col))
    ensures Carve(m, Column(ya, yb, col)) == Carve(m, Column(yb, ya, col))
  {
    assert forall x, y :: Covers(Column(ya, yb, col), x, y) <==> Covers(Column(yb, ya, col), x, y);
    PointwiseEqual(Carve(m, Column(ya, yb, col)), Carve(m, Column(yb, ya, col)));
  }
}
